=== FILE: README.md ===
# AI hairstyle task lifecycle, in Dafny

This project models the task lifecycle of the hairstyle-changer service in
`app/.server/services/ai-tasks.ts`. A user submits a photo and a list of
hairstyles. Intake charges one credit per hairstyle and creates one `pending`
task per hairstyle. Each task is later started at its provider: `kie_4o` (the
GPT-4o image API) or `kie_kontext` (Flux Kontext). After that it is reconciled
against the provider's reports until it reaches `succeeded` or `failed`.

The database, the vendor SDK, the bucket and the credit ledger are not modelled
as code. Each collaborator is a function-typed field of a `Services` (lifecycle)
or `IntakeServices` (intake) value, and the model calls it. Each answer is
either a value or the error the call would throw. So a contract can say, for
example, that the stored `task_id` is exactly what the provider's create call
returned for the stored `request_param`. The clock is an integer `now` passed to
each call.

Modules:

- `Wrappers` (wrappers.dfy): `Option` (null/undefined) and `Result` (value or thrown error).
- `Tasks` (tasks.dfy): the row (`Task`), its public projection (`View`,
  `transformResult`), request payloads, provider reports and errors. Also the
  invariants: `WellFormed`, `SameIdentity` (columns never rewritten), and the
  status relations `Step` (one call) and `Reachable` (many calls).
- `Lifecycle` (lifecycle.dfy): `startTask` and `updateTaskStatus` on one row.
  The two provider vocabularies are normalised into one three-way `Verdict`.
- `Store` (store.dfy): the table as a sequence of rows, lookups by task number
  and provider id, the entry points that take a task number, and the webhook
  entry `updateTaskStatusByTaskId`. `StoreProperties` proves that a
  notification for a finished task is refused.
- `Intake` (intake.dfy): `createAiHairstyle`, with one payload per hairstyle.
- `Runs` (runs.dfy): clients polling the same task over time, and the
  end-to-end scenario.

The code behaves as follows in places that are easy to misread:

- A `pending` task swallows every start error, including an unknown provider
  tag, and reports progress 0.
- A `running` task with an unknown provider tag is returned unchanged with
  progress 1. No error is raised.
- The progress of an in-progress 4o task is the integer
  `currency(progress).intValue` of the provider's report.
- Credits are charged before the photo is uploaded. An unknown `type` still
  charges one credit per hairstyle and creates no task.

JavaScript value semantics are modelled where they matter:

- "Falsy" means an absent or empty string. This applies to `task_id`, result
  urls and cover images.
- `??` falls through only on an absent value. So a Kontext report with an empty
  `resultImageUrl` fails as "Result url not retrieved", even when
  `originImageUrl` is present.
- An `undefined` field in an update is not written. So the no-url failure
  keeps the old `result_url` when no url was found, and a provider failure
  keeps the old `fail_reason` when the report has no `errorMessage`.

## Model

| member | source | states |
|---|---|---|
| `Lifecycle.StartTask` | app/.server/services/ai-tasks.ts:196-229 | Fails with "Task is not in Pending" or "Not Allow to Start" (no write) unless pending and due; then dispatches on the provider tag, any other tag failing with "Unvalid Task Provider" and a throwing provider call propagating; success writes exactly `task_id` (the id the chosen provider returned for the stored `request_param`), `status = running` and `started_at = now`, keeps the row well-formed and moves status forward |
| `Tasks.Project` | app/.server/services/ai-tasks.ts:38-62 | The caller's view carries exactly the task number, provider id, creation time, status, completion time, aspect, result url, failure reason and display names of the row |
| `Lifecycle.FourOUrl` | app/.server/services/ai-tasks.ts:277 | The 4o result url is the first of `response.resultUrls`, absent when there is no response or the list is empty |
| `Lifecycle.KontextUrl` | app/.server/services/ai-tasks.ts:327-328 | The Kontext result url is `resultImageUrl` when it is present (even if empty), else `originImageUrl`, absent without a response |
| `Lifecycle.Normalize4o` | app/.server/services/ai-tasks.ts:269-318 | `GENERATING` is in progress with the provider's progress, `SUCCESS` is finished with the 4o result url, anything else is a failure with the provider's `errorMessage` |
| `Lifecycle.NormalizeKontext` | app/.server/services/ai-tasks.ts:319-369 | `successFlag` 0 is in progress with progress 0, 1 is finished with the Kontext result url, anything else is a failure with `errorMessage` |
| `Lifecycle.Relocated` | app/.server/services/ai-tasks.ts:289-297 | The stored result url is the bucket copy (named by the task number, `png`, folder `result/hairstyle`) only in production when the copy stores a file; when relocation is off, throws or stores nothing, the provider url is kept |
| `Lifecycle.Settle` | app/.server/services/ai-tasks.ts:271-369 | In progress leaves the row unchanged with the provider progress; every terminal outcome reports progress 1 and writes `completed_at` and `result_data`; a success without a usable url fails with "Result url not retrieved"; a success with one succeeds with the relocated-or-provider url; a provider failure fails with its message, keeping the old reason when the report carries none; no other column is written |
| `Lifecycle.Poll` | app/.server/services/ai-tasks.ts:267-376 | A running task is queried at the provider its tag selects, and a throwing query propagates; an unknown tag is returned unchanged with progress 1; 4o `GENERATING` and Kontext flag 0 leave the row unchanged with the provider's progress (0 for Kontext); every other report writes `completed_at` and the report and reports 1; 4o `SUCCESS` or Kontext flag 1 without a usable url fails with "Result url not retrieved" and writes the url only when one was found, with one succeeds with the relocated-or-provider url and keeps `fail_reason`; any other report fails with the provider's `errorMessage` and keeps `result_url`; no column besides status, `completed_at`, `result_data`, `result_url` and `fail_reason` is written |
| `Lifecycle.UpdateTaskStatus` | app/.server/services/ai-tasks.ts:240-376 | Pending: tries to start, never fails, reports 0, and returns the row unchanged when the start fails; succeeded/failed: unchanged with progress 1; running without a usable `task_id`: "Unvalid Task ID"; running with one: the provider query of `Poll`; errors only from running rows; status only moves one step forward, a row changes only with its status, immutable columns and the provider id are kept, and well-formedness is preserved |
| `Store.FindByNo` | app/.server/services/ai-tasks.ts:242-246 | A task-number lookup returns the first row of the table with that number, and nothing exactly when no row has it |
| `Store.FindByTaskId` | app/.server/services/ai-tasks.ts:379 | A provider-id lookup returns the first row carrying that id, and nothing exactly when no row carries it |
| `Store.Put` | app/.server/services/ai-tasks.ts:299-304 | An update by task number replaces exactly the rows with that number and leaves every other row and the table length unchanged |
| `Store.PutKeepsTableWellFormed` | app/.server/services/ai-tasks.ts:211-215 | Writing a well-formed row over its own number keeps task numbers unique and every row well-formed |
| `Store.StartTaskByNo` | app/.server/services/ai-tasks.ts:188-229 | An unknown task number fails with "Unvalid Task No" and a failing start propagates its error; the call succeeds exactly when the row is found and its start succeeds, and then it found a due row, writes the started row over the rows with that number, hands back its view as running, touches no other row and keeps the table well-formed |
| `Store.Reconcile` | app/.server/services/ai-tasks.ts:240-376 | Fails exactly when the reconciliation raises, with its error; otherwise hands back the view of the reconciled row and its progress, writes that row over the rows with its number when it changed and nothing when it did not, touches no other row and keeps the table well-formed |
| `Store.UpdateTaskStatusByNo` | app/.server/services/ai-tasks.ts:240-376 | An unknown number fails with "Unvalid Task No" and a raising reconciliation propagates; the call succeeds exactly when the row is found and its reconciliation succeeds, and then hands back the view of the reconciled row and its progress, with the row written over its number exactly when it changed; a terminal row is returned unchanged with progress 1; a pending row never fails and reports 0; status moves one step forward; other rows are untouched; table well-formedness is kept |
| `Store.UpdateTaskStatusByTaskId` | app/.server/services/ai-tasks.ts:378-385 | Fails with "Unvalid Task ID" unless the first row carrying the provider id exists and is running, and a raising reconciliation propagates; it succeeds exactly when that row is running and its reconciliation succeeds; success writes the reconciled row over that task's number when it changed, touches no other row and keeps the table well-formed |
| `StoreProperties.WebhookSettlesOnce` | app/.server/services/ai-tasks.ts:378-385 | After a successful notification the provider id resolves to the row just written, so a second notification for a task that call finished fails with "Unvalid Task ID" |
| `Intake.FilesUrl` | app/.server/services/ai-tasks.ts:108-110 | The reference images are the photo first, then the style cover, then the colour cover, each cover only when given |
| `Intake.PayloadFor` | app/.server/services/ai-tasks.ts:92-181 | Each row is pending, due now, for the user, with the hairstyle's name and the colour name only when a colour value is given; `gpt-4o` builds a `kie_4o` request at aspect 2:3 with the ordered reference images, four variants and a prompt from the style name, colour name and hex, detail and which references are present; `kontext` builds a `kie_kontext` request at aspect 3:4 whose only input image is the photo, with model `flux-kontext-pro`, `png` output and a prompt from the style name, colour name and detail; the webhook url is sent only in production |
| `Intake.Payloads` | app/.server/services/ai-tasks.ts:92-181 | One row per hairstyle, in input order |
| `Intake.CreateAiHairstyle` | app/.server/services/ai-tasks.ts:71-186 | The ledger is charged exactly one credit per hairstyle; a ledger or upload error aborts the submission; on success there is one row per hairstyle in order for a known `type` and none for any other |
| `Intake.Materialize` | app/.server/services/ai-tasks.ts:64-69 | The stored row copies every column of the payload (user, status, schedule, provider, request, aspect, display names, input) under the assigned number and creation time, has no provider id, start, result or failure yet, and is well-formed when pending |
| `Runs.RunOnlyMovesForward` | app/.server/services/ai-tasks.ts:240-376 | Over any sequence of reconciliation calls, status only moves along pending -> running -> succeeded/failed |
| `Runs.RunKeepsWellFormed` | app/.server/services/ai-tasks.ts:240-376 | Over any sequence of reconciliation calls the row stays well-formed and its immutable columns are kept |
| `Runs.RunWritesProviderIdOnce` | app/.server/services/ai-tasks.ts:207-229 | Once a task has left pending, its `task_id` and `started_at` are never rewritten |
| `Runs.RunFrozenAfterTerminal` | app/.server/services/ai-tasks.ts:258-263 | A succeeded or failed task is left exactly as it is by any number of further calls |
| `Runs.RunWaitsForSchedule` | app/.server/services/ai-tasks.ts:200-203 | A pending task is untouched by any number of calls made before its `estimated_start_at` |
| `Runs.FreshTasksStartAtOnce` | app/.server/services/ai-tasks.ts:127-232 | Every task intake creates is stored well-formed, pending and already due with a known provider, so a first reconciliation call at intake time or later never fails and starts it exactly when the provider accepts the stored request, recording that provider's id and the call's time |
| `Runs.Scenario` | app/.server/services/ai-tasks.ts:71-308 | Three hairstyles charge three credits and create three pending 4o tasks with ordered reference images; the first starts (running, provider id set, progress 0), reports the provider's 42 while generating, and succeeds with progress 1, `completed_at` and the provider url |

## Left out

- Database access (`insertAiTaskBatch`, `getAiTaskByTaskNo`, `getAiTaskByTaskId`, `updateAiTask`): the table is a sequence of rows; assigning `task_no` and `created_at` on insert, and database failures, are not modelled.
- The KieAI SDK calls are the function-typed fields of `Services`; their requests over the network are not modelled.
- Photo upload, the `nanoid` file name and building urls from `CDN_URL` and `DOMAIN` are folded into the `upload` answer, the `download` answer and the `callbackUrl` value.
- `import.meta.env.PROD` is the `prod` flag of each services value.
- Prompt templating: the request records the arguments handed to the prompt templates, not the rendered text.
- `currency(result.progress).intValue`: the 4o report carries the converted integer.
- The credit ledger internals; a debit made before an upload failure is not refunded by the source, and the model does not record the debit as an effect.
- Concurrent reconciliation of the same task: the source takes no lock, and races are not a sequential property.
- `createAiTask` is the store insert, which is not modelled beyond `Intake.Materialize`.
- `errorMessage` of a provider report and the result urls are `Option` values, which do not tell `null` from `undefined`. An absent value is modelled as not written. The source writes a `null` as `null`; on a well-formed running row the column it writes is already empty, so the two agree there.
- The Kontext branch of intake also builds a reference-image list that it never sends; the model does not build it.
- `new Date()` is read more than once in one call; the model uses one `now` per call.
- Task status values other than the four lifecycle states cannot be represented; the source writes only those four.

=== FILE: intake.dfy ===
/** Request intake of app/.server/services/ai-tasks.ts (`createAiHairstyle`):
    one user submission is charged one credit per requested hairstyle and fans
    out into one pending task per hairstyle, in input order, all sharing the
    uploaded photo. */
module Intake {
  import opened Wrappers
  import opened Tasks

  /** The `type` selector values and the fixed per-provider request settings. */
  const FourOKind: string := "gpt-4o"
  const KontextKind: string := "kontext"
  const FourOAspect: string := "2:3"
  const KontextAspect: string := "3:4"
  const FourOVariants: string := "4"
  const KontextModel: string := "flux-kontext-pro"
  const KontextFormat: string := "png"

  /** The uploaded photo; its bytes and renaming are not modelled. */
  datatype Photo = Photo(name: string)

  /** The credit ledger's confirmation, opaque here. */
  datatype Receipt = Receipt(reference: string)

  /** The validated submission (`CreateAiHairstyleDTO`). */
  datatype Submission = Submission(
    photo: Photo, hairColor: HairColor, hairstyles: seq<Hairstyle>, detail: string, kind: string)

  /** The collaborators of intake: the credit ledger (user, credits), the photo
      upload answering with the photo's public url, the webhook url handed to
      the provider, and the production flag that switches the webhook on. */
  datatype IntakeServices = IntakeServices(
    consume: (string, nat) -> Result<Receipt, Error>,
    upload: Photo -> Result<Url, Error>,
    callbackUrl: Url,
    prod: bool)

  /** A row to insert (`InsertAiTask`); the store assigns number and creation time. */
  datatype NewTask = NewTask(
    userId: string, status: Status, estimatedStartAt: int, inputParams: InputParams,
    ext: Ext, aspect: string, provider: string, requestParam: RequestParam)

  datatype Intake = Intake(tasks: seq<NewTask>, consumption: Receipt)

  predicate KnownKind(kind: string) {
    kind == FourOKind || kind == KontextKind
  }

  /** Reference images for the 4o request: the photo, then the style cover and
      the colour cover when they are given. */
  function FilesUrl(photo: Url, style: Hairstyle, color: HairColor): (r: seq<Url>)
    ensures |r| == 1 + (if Truthy(style.cover) then 1 else 0) + (if Truthy(color.cover) then 1 else 0)
    ensures r[0] == photo
    ensures Truthy(style.cover) ==> r[1] == style.cover.value
    ensures Truthy(color.cover) ==> r[|r| - 1] == color.cover.value
    ensures forall u :: u in r[1..] ==>
      (Truthy(style.cover) && u == style.cover.value) || (Truthy(color.cover) && u == color.cover.value)
  {
    var withStyle := if Truthy(style.cover) then [photo, style.cover.value] else [photo];
    if Truthy(color.cover) then withStyle + [color.cover.value] else withStyle
  }

  /** The row built for one hairstyle. */
  function PayloadFor(kind: string, userId: string, photoUrl: Url, color: HairColor, style: Hairstyle,
                      detail: string, svc: IntakeServices, now: int): (p: NewTask)
    requires KnownKind(kind)
    ensures p.status == Pending && p.estimatedStartAt == now && p.userId == userId
    ensures p.inputParams == InputParams(photoUrl, color, style, detail)
    ensures p.ext.hairstyle == style.name
    ensures p.ext.haircolor == (if color.value != "" then Some(color.name) else None)
    ensures p.requestParam.callBackUrl == (if svc.prod then Some(svc.callbackUrl) else None)
    ensures kind == FourOKind ==>
      && p.provider == Kie4oTag && p.aspect == FourOAspect
      && p.requestParam.FourOParams?
      && p.requestParam.filesUrl == FilesUrl(photoUrl, style, color)
      && p.requestParam.size == FourOAspect
      && p.requestParam.fourOPrompt.withStyleReference == Truthy(style.cover)
      && p.requestParam.fourOPrompt.withColorReference == Truthy(color.cover)
      && p.requestParam.fourOPrompt.hairstyle == style.name
      && p.requestParam.fourOPrompt.haircolor == color.name
      && p.requestParam.fourOPrompt.haircolorHex == color.value
      && p.requestParam.fourOPrompt.detail == detail
      && p.requestParam.nVariants == FourOVariants
    ensures kind == KontextKind ==>
      && p.provider == KontextTag && p.aspect == KontextAspect
      && p.requestParam.KontextParams?
      && p.requestParam.inputImage == photoUrl
      && p.requestParam.aspectRatio == KontextAspect
      && p.requestParam.kontextPrompt == KontextPrompt(style.name, color.name, detail)
      && p.requestParam.model == KontextModel
      && p.requestParam.outputFormat == KontextFormat
  {
    var callback := if svc.prod then Some(svc.callbackUrl) else None;
    var ext := Ext(style.name, if color.value != "" then Some(color.name) else None);
    var input := InputParams(photoUrl, color, style, detail);
    if kind == FourOKind then
      var prompt := FourOPrompt(style.name, color.name, color.value,
                                Truthy(style.cover), Truthy(color.cover), detail);
      var params := FourOParams(FilesUrl(photoUrl, style, color), prompt, FourOAspect, FourOVariants, callback);
      NewTask(userId, Pending, now, input, ext, FourOAspect, Kie4oTag, params)
    else
      var prompt := KontextPrompt(style.name, color.name, detail);
      var params := KontextParams(photoUrl, prompt, KontextAspect, KontextModel, KontextFormat, callback);
      NewTask(userId, Pending, now, input, ext, KontextAspect, KontextTag, params)
  }

  /** `hairstyle.map(...)`: one row per hairstyle, in order. */
  function Payloads(kind: string, userId: string, photoUrl: Url, color: HairColor, styles: seq<Hairstyle>,
                    detail: string, svc: IntakeServices, now: int): (ps: seq<NewTask>)
    requires KnownKind(kind)
    ensures |ps| == |styles|
    ensures forall i :: 0 <= i < |styles| ==> ps[i] == PayloadFor(kind, userId, photoUrl, color, styles[i], detail, svc, now)
  {
    if |styles| == 0 then []
    else [PayloadFor(kind, userId, photoUrl, color, styles[0], detail, svc, now)]
         + Payloads(kind, userId, photoUrl, color, styles[1..], detail, svc, now)
  }

  /** `createAiHairstyle`: charge, upload the photo, build the rows. */
  function CreateAiHairstyle(sub: Submission, userId: string, svc: IntakeServices, now: int): (r: Result<Intake, Error>)
    ensures svc.consume(userId, |sub.hairstyles|).Err? ==> r == Err(svc.consume(userId, |sub.hairstyles|).error)
    ensures svc.consume(userId, |sub.hairstyles|).Ok? && svc.upload(sub.photo).Err?
            ==> r == Err(svc.upload(sub.photo).error)
    ensures r.Ok? <==> svc.consume(userId, |sub.hairstyles|).Ok? && svc.upload(sub.photo).Ok?
    // exactly one credit per requested hairstyle is charged
    ensures r.Ok? ==> svc.consume(userId, |sub.hairstyles|) == Ok(r.value.consumption)
    ensures r.Ok? && !KnownKind(sub.kind) ==> r.value.tasks == []
    ensures r.Ok? && KnownKind(sub.kind) ==> |r.value.tasks| == |sub.hairstyles|
    ensures r.Ok? && KnownKind(sub.kind) ==>
      forall i :: 0 <= i < |sub.hairstyles| ==>
        r.value.tasks[i] == PayloadFor(sub.kind, userId, svc.upload(sub.photo).value, sub.hairColor,
                                       sub.hairstyles[i], sub.detail, svc, now)
  {
    match svc.consume(userId, |sub.hairstyles|)
    case Err(e) => Err(e)
    case Ok(receipt) =>
      match svc.upload(sub.photo)
      case Err(e) => Err(e)
      case Ok(photoUrl) =>
        if KnownKind(sub.kind) then
          Ok(Intake(Payloads(sub.kind, userId, photoUrl, sub.hairColor, sub.hairstyles, sub.detail, svc, now), receipt))
        else
          Ok(Intake([], receipt))
  }

  /** The row the store creates from a payload: no provider id, no start,
      no result yet. */
  function Materialize(p: NewTask, taskNo: string, createdAt: int): (t: Task)
    ensures t.taskNo == taskNo && t.createdAt == createdAt
    ensures t.status == p.status && t.provider == p.provider && t.requestParam == p.requestParam
    ensures t.estimatedStartAt == p.estimatedStartAt && t.userId == p.userId
    ensures t.aspect == p.aspect && t.ext == p.ext && t.inputParams == p.inputParams
    ensures t.taskId.None? && t.startedAt.None? && t.completedAt.None?
    ensures t.resultUrl.None? && t.resultData.None? && t.failReason.None?
    ensures p.status == Pending ==> WellFormed(t)
  {
    Task(taskNo, p.userId, createdAt, None, p.status, p.provider, p.requestParam, p.estimatedStartAt,
         None, None, None, None, None, p.aspect, p.ext, p.inputParams)
  }
}

=== FILE: lifecycle.dfy ===
/** The task lifecycle engine of app/.server/services/ai-tasks.ts: `startTask`
    (pending -> running) and `updateTaskStatus` (reconcile one task), as pure
    functions from a row and the answers of its collaborators to the row after
    the write and the progress reported to the caller. */
module Lifecycle {
  import opened Wrappers
  import opened Tasks

  /** One request to copy a provider asset into the bucket. */
  datatype Download = Download(src: Url, fileName: string, ext: string, folder: string)

  /** The collaborators the engine calls. Each vendor call answers with a value
      or with the error it throws; `download` answers with the public url of the
      stored copy, `None` when it stored nothing. `prod` is the production flag
      that switches result relocation on. */
  datatype Services = Services(
    create4o: RequestParam -> Result<string, Error>,
    createKontext: RequestParam -> Result<string, Error>,
    query4o: string -> Result<FourOReport, Error>,
    queryKontext: string -> Result<KontextReport, Error>,
    download: Download -> Result<Option<Url>, Error>,
    prod: bool)

  /** The row after a reconciliation call and the progress reported. */
  datatype Reconciled = Reconciled(task: Task, progress: int)

  /** A provider report normalised to three outcomes. `Finished` carries the
      result url the provider offered, if any; `Rejected` carries the provider's
      error message, if any. */
  datatype Verdict = InProgress(progress: int) | Finished(url: Option<Url>) | Rejected(reason: Option<string>)

  const Generating: string := "GENERATING"
  const Success: string := "SUCCESS"
  const ResultFolder: string := "result/hairstyle"
  const ResultExt: string := "png"
  const MissingUrlReason: string := "Result url not retrieved"

  /** A pending task whose scheduled start has come. */
  predicate Due(t: Task, now: int) {
    t.status == Pending && t.estimatedStartAt <= now
  }

  /** Submits the stored request to the provider the tag selects. */
  function Submit(t: Task, svc: Services): Result<string, Error> {
    if t.provider == Kie4oTag then svc.create4o(t.requestParam)
    else if t.provider == KontextTag then svc.createKontext(t.requestParam)
    else Err(InvalidProvider)
  }

  function StartTask(t: Task, svc: Services, now: int): (r: Result<Task, Error>)
    ensures r.Ok? <==> Due(t, now) && KnownProvider(t.provider) && Submit(t, svc).Ok?
    ensures t.status != Pending ==> r == Err(NotPending) && Message(r.error) == "Task is not in Pending"
    ensures t.status == Pending && now < t.estimatedStartAt
            ==> r == Err(NotAllowedToStart) && Message(r.error) == "Not Allow to Start"
    ensures Due(t, now) && !KnownProvider(t.provider)
            ==> r == Err(InvalidProvider) && Message(r.error) == "Unvalid Task Provider"
    ensures Due(t, now) && Submit(t, svc).Err? ==> r == Err(Submit(t, svc).error)
    // exactly task_id, status and started_at are written
    ensures r.Ok? ==> r.value.(taskId := t.taskId, status := t.status, startedAt := t.startedAt) == t
    ensures r.Ok? ==> r.value.status == Running && r.value.startedAt == Some(now)
    ensures r.Ok? && t.provider == Kie4oTag ==> r.value.taskId == Some(svc.create4o(t.requestParam).value)
    ensures r.Ok? && t.provider == KontextTag ==> r.value.taskId == Some(svc.createKontext(t.requestParam).value)
    ensures r.Ok? ==> Step(t.status, r.value.status) && SameIdentity(t, r.value)
    ensures WellFormed(t) && r.Ok? ==> WellFormed(r.value)
  {
    if t.status != Pending then Err(NotPending)
    else if t.estimatedStartAt > now then Err(NotAllowedToStart)
    else
      match Submit(t, svc)
      case Err(e) => Err(e)
      case Ok(id) => Ok(t.(taskId := Some(id), status := Running, startedAt := Some(now)))
  }

  /** The result url of a 4o report: the first of `response.resultUrls`. */
  function FourOUrl(rep: FourOReport): (u: Option<Url>)
    ensures u.Some? <==> rep.response.Some? && |rep.response.value.resultUrls| > 0
    ensures u.Some? ==> u.value == rep.response.value.resultUrls[0]
  {
    match rep.response
    case None => None
    case Some(resp) => if |resp.resultUrls| == 0 then None else Some(resp.resultUrls[0])
  }

  /** The result url of a Kontext report: `resultImageUrl ?? originImageUrl`,
      where only an absent value falls through (an empty string does not). */
  function KontextUrl(rep: KontextReport): (u: Option<Url>)
    ensures rep.response.None? ==> u.None?
    ensures rep.response.Some? && rep.response.value.resultImageUrl.Some? ==> u == rep.response.value.resultImageUrl
    ensures rep.response.Some? && rep.response.value.resultImageUrl.None? ==> u == rep.response.value.originImageUrl
  {
    match rep.response
    case None => None
    case Some(resp) => if resp.resultImageUrl.Some? then resp.resultImageUrl else resp.originImageUrl
  }

  function Normalize4o(rep: FourOReport): (v: Verdict)
    ensures v.InProgress? <==> rep.status == Generating
    ensures v.Finished? <==> rep.status == Success
    ensures v.InProgress? ==> v.progress == rep.progress
    ensures v.Finished? ==> v.url == FourOUrl(rep)
    ensures v.Rejected? ==> v.reason == rep.errorMessage
  {
    if rep.status == Generating then InProgress(rep.progress)
    else if rep.status == Success then Finished(FourOUrl(rep))
    else Rejected(rep.errorMessage)
  }

  function NormalizeKontext(rep: KontextReport): (v: Verdict)
    ensures v.InProgress? <==> rep.successFlag == 0
    ensures v.Finished? <==> rep.successFlag == 1
    ensures v.InProgress? ==> v.progress == 0
    ensures v.Finished? ==> v.url == KontextUrl(rep)
    ensures v.Rejected? ==> v.reason == rep.errorMessage
  {
    if rep.successFlag == 0 then InProgress(0)
    else if rep.successFlag == 1 then Finished(KontextUrl(rep))
    else Rejected(rep.errorMessage)
  }

  /** The url stored on success: the relocated copy when relocation is on and
      stores a file, otherwise the provider's own url. */
  function Relocated(t: Task, src: Url, svc: Services): (u: Url)
    ensures svc.prod && svc.download(Download(src, t.taskNo, ResultExt, ResultFolder)).Ok?
            && svc.download(Download(src, t.taskNo, ResultExt, ResultFolder)).value.Some?
            ==> u == svc.download(Download(src, t.taskNo, ResultExt, ResultFolder)).value.value
    ensures !svc.prod ==> u == src
    ensures svc.download(Download(src, t.taskNo, ResultExt, ResultFolder)).Err? ==> u == src
    ensures svc.download(Download(src, t.taskNo, ResultExt, ResultFolder)) == Ok(None) ==> u == src
  {
    if !svc.prod then src
    else
      match svc.download(Download(src, t.taskNo, ResultExt, ResultFolder))
      case Ok(Some(stored)) => stored
      case _ => src
  }

  /** Applies a normalised verdict to a running row. */
  function Settle(t: Task, v: Verdict, data: ResultData, svc: Services, now: int): (r: Reconciled)
    ensures v.InProgress? ==> r == Reconciled(t, v.progress)
    ensures !v.InProgress? ==> r.progress == 1 && Terminal(r.task.status)
    ensures !v.InProgress? ==> r.task.completedAt == Some(now) && r.task.resultData == Some(data)
    ensures v.Finished? && !Truthy(v.url) ==> r.task.status == Failed && r.task.failReason == Some(MissingUrlReason)
    // an undefined url is not written; an empty one is
    ensures v.Finished? && !Truthy(v.url) ==> r.task.resultUrl == (if v.url.Some? then v.url else t.resultUrl)
    ensures v.Finished? && Truthy(v.url) ==> r.task.status == Succeeded
    ensures v.Finished? && Truthy(v.url) ==> r.task.resultUrl == Some(Relocated(t, v.url.value, svc))
    ensures v.Finished? && Truthy(v.url) ==> r.task.failReason == t.failReason
    ensures v.Rejected? ==> r.task.status == Failed
    // an undefined message is not written
    ensures v.Rejected? ==> r.task.failReason == (if v.reason.Some? then v.reason else t.failReason)
    ensures v.Rejected? ==> r.task.resultUrl == t.resultUrl
    // only status, completed_at, result_data, result_url and fail_reason are written
    ensures r.task.(status := t.status, completedAt := t.completedAt, resultData := t.resultData,
                    resultUrl := t.resultUrl, failReason := t.failReason) == t
  {
    match v
    case InProgress(p) => Reconciled(t, p)
    case Finished(url) =>
      if !Truthy(url) then
        Reconciled(t.(status := Failed, completedAt := Some(now), resultData := Some(data),
                      resultUrl := if url.Some? then url else t.resultUrl,
                      failReason := Some(MissingUrlReason)), 1)
      else
        Reconciled(t.(status := Succeeded, completedAt := Some(now), resultData := Some(data),
                      resultUrl := Some(Relocated(t, url.value, svc))), 1)
    case Rejected(reason) =>
      Reconciled(t.(status := Failed, completedAt := Some(now), resultData := Some(data),
                    failReason := if reason.Some? then reason else t.failReason), 1)
  }

  /** The running branch once `task_id` has been checked: query the provider
      the tag selects and settle its report; an unknown tag is left alone. */
  function Poll(t: Task, svc: Services, now: int): (r: Result<Reconciled, Error>)
    requires t.status == Running && t.taskId.Some?
    // a throwing query propagates and writes nothing
    ensures t.provider == Kie4oTag && svc.query4o(t.taskId.value).Err?
            ==> r == Err(svc.query4o(t.taskId.value).error)
    ensures t.provider == KontextTag && svc.queryKontext(t.taskId.value).Err?
            ==> r == Err(svc.queryKontext(t.taskId.value).error)
    ensures r.Err? ==> KnownProvider(t.provider)
    ensures !KnownProvider(t.provider) ==> r == Ok(Reconciled(t, 1))
    // only status, completed_at, result_data, result_url and fail_reason are written
    ensures r.Ok? ==> r.value.task.(status := t.status, completedAt := t.completedAt, resultData := t.resultData,
                                    resultUrl := t.resultUrl, failReason := t.failReason) == t
    // 4o: GENERATING reports progress, SUCCESS needs a url, anything else fails
    ensures t.provider == Kie4oTag && svc.query4o(t.taskId.value).Ok? ==>
      var rep := svc.query4o(t.taskId.value).value;
      && r.Ok?
      && (rep.status == Generating ==> r.value == Reconciled(t, rep.progress))
      && (rep.status != Generating ==> r.value.progress == 1 && r.value.task.completedAt == Some(now)
                                        && r.value.task.resultData == Some(FourOData(rep)))
      && ((rep.status == Success && !Truthy(FourOUrl(rep)))
              ==> r.value.task.status == Failed && r.value.task.failReason == Some(MissingUrlReason)
                  && r.value.task.resultUrl == (if FourOUrl(rep).Some? then FourOUrl(rep) else t.resultUrl))
      && ((rep.status == Success && Truthy(FourOUrl(rep)))
              ==> r.value.task.status == Succeeded && r.value.task.failReason == t.failReason
                  && r.value.task.resultUrl == Some(Relocated(t, FourOUrl(rep).value, svc)))
      && ((rep.status != Generating && rep.status != Success)
              ==> r.value.task.status == Failed && r.value.task.resultUrl == t.resultUrl
                  && r.value.task.failReason == (if rep.errorMessage.Some? then rep.errorMessage else t.failReason))
    // Kontext: flag 0 is in progress, flag 1 needs a url, any other flag fails
    ensures t.provider == KontextTag && svc.queryKontext(t.taskId.value).Ok? ==>
      var rep := svc.queryKontext(t.taskId.value).value;
      && r.Ok?
      && (rep.successFlag == 0 ==> r.value == Reconciled(t, 0))
      && (rep.successFlag != 0 ==> r.value.progress == 1 && r.value.task.completedAt == Some(now)
                                    && r.value.task.resultData == Some(KontextData(rep)))
      && ((rep.successFlag == 1 && !Truthy(KontextUrl(rep)))
              ==> r.value.task.status == Failed && r.value.task.failReason == Some(MissingUrlReason)
                  && r.value.task.resultUrl == (if KontextUrl(rep).Some? then KontextUrl(rep) else t.resultUrl))
      && ((rep.successFlag == 1 && Truthy(KontextUrl(rep)))
              ==> r.value.task.status == Succeeded && r.value.task.failReason == t.failReason
                  && r.value.task.resultUrl == Some(Relocated(t, KontextUrl(rep).value, svc)))
      && ((rep.successFlag != 0 && rep.successFlag != 1)
              ==> r.value.task.status == Failed && r.value.task.resultUrl == t.resultUrl
                  && r.value.task.failReason == (if rep.errorMessage.Some? then rep.errorMessage else t.failReason))
  {
    if t.provider == Kie4oTag then
      match svc.query4o(t.taskId.value)
      case Err(e) => Err(e)
      case Ok(rep) => Ok(Settle(t, Normalize4o(rep), FourOData(rep), svc, now))
    else if t.provider == KontextTag then
      match svc.queryKontext(t.taskId.value)
      case Err(e) => Err(e)
      case Ok(rep) => Ok(Settle(t, NormalizeKontext(rep), KontextData(rep), svc, now))
    else
      Ok(Reconciled(t, 1))
  }

  /** Reconciles one task, dispatching on its status. */
  function UpdateTaskStatus(t: Task, svc: Services, now: int): (r: Result<Reconciled, Error>)
    // pending: try to start, report 0, and never fail
    ensures t.status == Pending ==> r.Ok? && r.value.progress == 0
    ensures t.status == Pending && StartTask(t, svc, now).Err? ==> r.value.task == t
    ensures t.status == Pending && StartTask(t, svc, now).Ok? ==> r.value.task == StartTask(t, svc, now).value
    // terminal: nothing to do
    ensures Terminal(t.status) ==> r == Ok(Reconciled(t, 1))
    // running: integrity of the provider id, then dispatch on the provider
    ensures t.status == Running && !Truthy(t.taskId) ==> r == Err(InvalidTaskId) && Message(r.error) == "Unvalid Task ID"
    ensures t.status == Running && Truthy(t.taskId) ==> r == Poll(t, svc, now)
    // corollaries of the clause above: the calls that leave a running row as it is
    ensures t.status == Running && Truthy(t.taskId) && !KnownProvider(t.provider) ==> r == Ok(Reconciled(t, 1))
    ensures t.status == Running && Truthy(t.taskId) && t.provider == Kie4oTag
            && svc.query4o(t.taskId.value).Ok? && svc.query4o(t.taskId.value).value.status == Generating
            ==> r == Ok(Reconciled(t, svc.query4o(t.taskId.value).value.progress))
    ensures t.status == Running && Truthy(t.taskId) && t.provider == KontextTag
            && svc.queryKontext(t.taskId.value).Ok? && svc.queryKontext(t.taskId.value).value.successFlag == 0
            ==> r == Ok(Reconciled(t, 0))
    ensures r.Err? ==> t.status == Running
    // status moves forward only, and a row only changes together with its status
    ensures r.Ok? ==> Step(t.status, r.value.task.status)
    ensures r.Ok? && r.value.task.status == t.status ==> r.value.task == t
    ensures r.Ok? && Terminal(r.value.task.status) ==> r.value.progress == 1
    ensures r.Ok? ==> SameIdentity(t, r.value.task)
    ensures r.Ok? && t.status != Pending ==> r.value.task.taskId == t.taskId && r.value.task.startedAt == t.startedAt
    ensures WellFormed(t) && r.Ok? ==> WellFormed(r.value.task)
  {
    match t.status
    case Pending =>
      (match StartTask(t, svc, now)
       case Ok(started) => Ok(Reconciled(started, 0))
       case Err(_) => Ok(Reconciled(t, 0)))
    case Succeeded => Ok(Reconciled(t, 1))
    case Failed => Ok(Reconciled(t, 1))
    case Running =>
      if !Truthy(t.taskId) then Err(InvalidTaskId)
      else Poll(t, svc, now)
  }
}

=== FILE: runs.dfy ===
/** Repeated reconciliation of one task, as clients poll `updateTaskStatus`
    (app/.server/services/ai-tasks.ts) over time: each call sees its own
    provider answers and clock. Whatever those answers are, the status only
    moves forward, the row stays well-formed, the provider id and start time are
    written once, and a finished task is never touched again. */
module Runs {
  import opened Wrappers
  import opened Tasks
  import opened Lifecycle
  import opened Intake

  /** One reconciliation call: the collaborators' answers and the clock. */
  datatype Call = Call(svc: Services, now: int)

  /** The row after one call; a call that raises writes nothing. */
  function After(t: Task, c: Call): Task {
    match UpdateTaskStatus(t, c.svc, c.now)
    case Ok(rc) => rc.task
    case Err(_) => t
  }

  /** The row after a sequence of calls. */
  function Run(t: Task, calls: seq<Call>): Task
    decreases |calls|
  {
    if |calls| == 0 then t else Run(After(t, calls[0]), calls[1..])
  }

  lemma {:induction false} RunOnlyMovesForward(t: Task, calls: seq<Call>)
    ensures Reachable(t.status, Run(t, calls).status)
    ensures Rank(t.status) <= Rank(Run(t, calls).status)
    decreases |calls|
  {
    if |calls| > 0 {
      RunOnlyMovesForward(After(t, calls[0]), calls[1..]);
    }
  }

  lemma {:induction false} RunKeepsWellFormed(t: Task, calls: seq<Call>)
    requires WellFormed(t)
    ensures WellFormed(Run(t, calls))
    ensures SameIdentity(t, Run(t, calls))
    decreases |calls|
  {
    if |calls| > 0 {
      RunKeepsWellFormed(After(t, calls[0]), calls[1..]);
    }
  }

  /** Once started, the provider id and start time are never rewritten. */
  lemma {:induction false} RunWritesProviderIdOnce(t: Task, calls: seq<Call>)
    requires t.status != Pending
    ensures Run(t, calls).taskId == t.taskId
    ensures Run(t, calls).startedAt == t.startedAt
    decreases |calls|
  {
    if |calls| > 0 {
      var next := After(t, calls[0]);
      assert next.status != Pending;
      RunWritesProviderIdOnce(next, calls[1..]);
    }
  }

  /** A succeeded or failed task is frozen: any number of further calls leave
      it exactly as it is. */
  lemma {:induction false} RunFrozenAfterTerminal(t: Task, calls: seq<Call>)
    requires Terminal(t.status)
    ensures Run(t, calls) == t
    decreases |calls|
  {
    if |calls| > 0 {
      assert After(t, calls[0]) == t;
      RunFrozenAfterTerminal(t, calls[1..]);
    }
  }

  /** A pending task that is not yet due stays untouched by any number of
      calls made before its scheduled start. */
  lemma {:induction false} RunWaitsForSchedule(t: Task, calls: seq<Call>)
    requires t.status == Pending
    requires forall i :: 0 <= i < |calls| ==> calls[i].now < t.estimatedStartAt
    ensures Run(t, calls) == t
    decreases |calls|
  {
    if |calls| > 0 {
      assert After(t, calls[0]) == t;
      RunWaitsForSchedule(t, calls[1..]);
    }
  }

  /** Every task intake creates is stored as a well-formed pending row that is
      already due, so the first reconciliation call, made at intake time or any
      time later, starts it exactly when its provider accepts the stored request,
      with that provider's id and that call's clock. */
  lemma FreshTasksStartAtOnce(sub: Submission, userId: string, isvc: IntakeServices, now: int,
                              i: int, no: string, createdAt: int, svc: Services, later: int)
    requires CreateAiHairstyle(sub, userId, isvc, now).Ok?
    requires 0 <= i < |CreateAiHairstyle(sub, userId, isvc, now).value.tasks|
    requires now <= later
    ensures var t := Materialize(CreateAiHairstyle(sub, userId, isvc, now).value.tasks[i], no, createdAt);
            && WellFormed(t) && Due(t, later) && KnownProvider(t.provider)
            && UpdateTaskStatus(t, svc, later).Ok?
            && (UpdateTaskStatus(t, svc, later).value.task.status == Running <==> Submit(t, svc).Ok?)
            && (Submit(t, svc).Ok? ==>
                  && UpdateTaskStatus(t, svc, later).value.task.taskId == Some(Submit(t, svc).value)
                  && UpdateTaskStatus(t, svc, later).value.task.startedAt == Some(later))
  {
  }

  /** Submit three hairstyles, start the first task, poll it while the provider
      reports 42, then poll it once the provider reports success. */
  lemma Scenario()
    ensures
      var styles := [Hairstyle("bob", None), Hairstyle("pixie", Some("pixie.png")), Hairstyle("bun", None)];
      var color := HairColor("black", "#000000", None);
      var ledger := IntakeServices(
        (user: string, credits: nat) => if credits == 3 then Ok(Receipt("debit-3")) else Err(Raised("wrong amount")),
        (photo: Photo) => Ok("cdn/photo.jpg"), "site/webhooks/kie-image", false);
      var intake := CreateAiHairstyle(Submission(Photo("me.jpg"), color, styles, "", FourOKind), "u1", ledger, 100);
      && intake.Ok?
      && |intake.value.tasks| == 3
      && (forall i :: 0 <= i < 3 ==> intake.value.tasks[i].status == Pending)
      && intake.value.tasks[1].requestParam.filesUrl == ["cdn/photo.jpg", "pixie.png"]
      && var t := Materialize(intake.value.tasks[0], "n1", 100);
         var generating := Services(
           (p: RequestParam) => Ok("kie-1"), (p: RequestParam) => Err(Raised("unused")),
           (id: string) => Ok(FourOReport(Generating, 42, None, None)),
           (id: string) => Err(Raised("unused")),
           (d: Download) => Ok(None), false);
         var done := generating.(query4o := (id: string) =>
           Ok(FourOReport(Success, 100, Some(FourOResponse(["kie/out.png"])), None)));
         var started := UpdateTaskStatus(t, generating, 100);
         && started == Ok(Reconciled(t.(taskId := Some("kie-1"), status := Running, startedAt := Some(100)), 0))
         && var running := started.value.task;
            && UpdateTaskStatus(running, generating, 200) == Ok(Reconciled(running, 42))
            && var finished := UpdateTaskStatus(running, done, 300);
               && finished.Ok? && finished.value.progress == 1
               && finished.value.task.status == Succeeded
               && finished.value.task.completedAt == Some(300)
               && finished.value.task.resultUrl == Some("kie/out.png")
  {
  }
}

=== FILE: store.dfy ===
/** The entry points of app/.server/services/ai-tasks.ts that look a task up in
    the task table before acting on it: `startTask` and `updateTaskStatus` called
    with a task number, and the webhook entry `updateTaskStatusByTaskId`. The
    table is a sequence of rows; a lookup returns the first matching row. The
    SQL update sets only the columns it names on the rows with the task number;
    here the whole row is replaced, which agrees because the written row is the
    row just read with exactly those columns changed and `task_no` is the key. */
module Store {
  import opened Wrappers
  import opened Tasks
  import opened Lifecycle

  type Table = seq<Task>

  /** Unique task numbers and well-formed rows. */
  predicate TableWellFormed(table: Table) {
    && (forall i :: 0 <= i < |table| ==> WellFormed(table[i]))
    && (forall i, j :: 0 <= i < j < |table| ==> table[i].taskNo != table[j].taskNo)
  }

  /** Index of the first row satisfying `p`. */
  function FirstWhere(table: Table, p: Task -> bool): (r: Option<nat>)
    ensures r.Some? ==> r.value < |table| && p(table[r.value])
    ensures r.Some? ==> forall j :: 0 <= j < r.value ==> !p(table[j])
    ensures r.None? ==> forall j :: 0 <= j < |table| ==> !p(table[j])
  {
    if |table| == 0 then None
    else if p(table[0]) then Some(0)
    else
      match FirstWhere(table[1..], p)
      case None => None
      case Some(k) => Some(k + 1)
  }

  /** `getAiTaskByTaskNo`. */
  function FindByNo(table: Table, no: string): (r: Option<Task>)
    ensures r.Some? ==> r.value in table && r.value.taskNo == no
    ensures r.None? <==> forall i :: 0 <= i < |table| ==> table[i].taskNo != no
    // the first row with the number is the one found
    ensures forall i :: (0 <= i < |table| && table[i].taskNo == no
                         && forall j :: 0 <= j < i ==> table[j].taskNo != no)
                        ==> r == Some(table[i])
  {
    match FirstWhere(table, (row: Task) => row.taskNo == no)
    case None => None
    case Some(i) => Some(table[i])
  }

  /** `getAiTaskByTaskId`. */
  function FindByTaskId(table: Table, id: string): (r: Option<Task>)
    ensures r.Some? ==> r.value in table && r.value.taskId == Some(id)
    ensures r.None? <==> forall i :: 0 <= i < |table| ==> table[i].taskId != Some(id)
    // the first row carrying the id is the one found
    ensures forall i :: (0 <= i < |table| && table[i].taskId == Some(id)
                         && forall j :: 0 <= j < i ==> table[j].taskId != Some(id))
                        ==> r == Some(table[i])
  {
    match FirstWhere(table, (row: Task) => row.taskId == Some(id))
    case None => None
    case Some(i) => Some(table[i])
  }

  /** `updateAiTask`: every row carrying `row.taskNo` becomes `row`. */
  function Put(table: Table, row: Task): (r: Table)
    ensures |r| == |table|
    ensures forall i :: 0 <= i < |table| && table[i].taskNo == row.taskNo ==> r[i] == row
    ensures forall i :: 0 <= i < |table| && table[i].taskNo != row.taskNo ==> r[i] == table[i]
  {
    if |table| == 0 then []
    else [if table[0].taskNo == row.taskNo then row else table[0]] + Put(table[1..], row)
  }

  /** Writing a well-formed row over the one with its number keeps the table well-formed. */
  lemma PutKeepsTableWellFormed(table: Table, row: Task)
    ensures TableWellFormed(table) && WellFormed(row) ==> TableWellFormed(Put(table, row))
  {
  }

  /** `startTask` called with a task number. */
  function StartTaskByNo(table: Table, no: string, svc: Services, now: int): (r: Result<(Table, View), Error>)
    ensures FindByNo(table, no).None? ==> r == Err(InvalidTaskNo) && Message(r.error) == "Unvalid Task No"
    ensures r.Ok? <==> FindByNo(table, no).Some? && StartTask(FindByNo(table, no).value, svc, now).Ok?
    ensures FindByNo(table, no).Some? && StartTask(FindByNo(table, no).value, svc, now).Err?
            ==> r == Err(StartTask(FindByNo(table, no).value, svc, now).error)
    ensures r.Ok? ==> FindByNo(table, no).Some? && Due(FindByNo(table, no).value, now)
    ensures r.Ok? ==> r.value.1.status == Running && r.value.1.taskNo == no
    ensures r.Ok? ==> |r.value.0| == |table|
    // the started row is written over every row with the number and handed back
    ensures r.Ok? ==>
      var started := StartTask(FindByNo(table, no).value, svc, now).value;
      && r.value.1 == Project(started)
      && forall i :: 0 <= i < |table| && table[i].taskNo == no ==> r.value.0[i] == started
    ensures r.Ok? ==> forall i :: 0 <= i < |table| && table[i].taskNo != no ==> r.value.0[i] == table[i]
    ensures TableWellFormed(table) && r.Ok? ==> TableWellFormed(r.value.0)
  {
    match FindByNo(table, no)
    case None => Err(InvalidTaskNo)
    case Some(t) =>
      match StartTask(t, svc, now)
      case Err(e) => Err(e)
      case Ok(started) =>
        PutKeepsTableWellFormed(table, started);
        Ok((Put(table, started), Project(started)))
  }

  /** What `updateTaskStatus` hands back: the table after the call, the public
      view of the task and the progress. */
  datatype Polled = Polled(table: Table, task: View, progress: int)

  /** Reconciles a row that was read from the table and writes the result back. */
  function Reconcile(table: Table, t: Task, svc: Services, now: int): (r: Result<Polled, Error>)
    requires t in table
    ensures r.Ok? <==> UpdateTaskStatus(t, svc, now).Ok?
    ensures r.Err? ==> r.error == UpdateTaskStatus(t, svc, now).error
    ensures r.Ok? ==> |r.value.table| == |table|
    // the caller sees the reconciled row and its progress
    ensures r.Ok? ==>
      var rc := UpdateTaskStatus(t, svc, now).value;
      && r.value.task == Project(rc.task) && r.value.progress == rc.progress
      && (rc.task != t ==> forall i :: 0 <= i < |table| && table[i].taskNo == t.taskNo ==> r.value.table[i] == rc.task)
    ensures r.Ok? ==> forall i :: 0 <= i < |table| && table[i].taskNo != t.taskNo ==> r.value.table[i] == table[i]
    ensures r.Ok? && r.value.task.status == t.status ==> r.value.table == table && r.value.task == Project(t)
    ensures TableWellFormed(table) && r.Ok? ==> TableWellFormed(r.value.table)
  {
    match UpdateTaskStatus(t, svc, now)
    case Err(e) => Err(e)
    case Ok(rc) =>
      if rc.task == t then Ok(Polled(table, Project(t), rc.progress))
      else
        PutKeepsTableWellFormed(table, rc.task);
        Ok(Polled(Put(table, rc.task), Project(rc.task), rc.progress))
  }

  /** `updateTaskStatus` called with a task number. */
  function UpdateTaskStatusByNo(table: Table, no: string, svc: Services, now: int): (r: Result<Polled, Error>)
    ensures FindByNo(table, no).None? ==> r == Err(InvalidTaskNo) && Message(r.error) == "Unvalid Task No"
    ensures r.Ok? <==> FindByNo(table, no).Some? && UpdateTaskStatus(FindByNo(table, no).value, svc, now).Ok?
    ensures FindByNo(table, no).Some? && UpdateTaskStatus(FindByNo(table, no).value, svc, now).Err?
            ==> r == Err(UpdateTaskStatus(FindByNo(table, no).value, svc, now).error)
    ensures FindByNo(table, no).Some? && Terminal(FindByNo(table, no).value.status)
            ==> r == Ok(Polled(table, Project(FindByNo(table, no).value), 1))
    ensures FindByNo(table, no).Some? && FindByNo(table, no).value.status == Pending
            ==> r.Ok? && r.value.progress == 0
    ensures r.Ok? ==> r.value.task.taskNo == no && |r.value.table| == |table|
    // the reconciled row is handed back, and written over every row with the
    // number when it changed
    ensures r.Ok? ==>
      var t := FindByNo(table, no).value;
      var rc := UpdateTaskStatus(t, svc, now).value;
      && r.value.task == Project(rc.task) && r.value.progress == rc.progress
      && (rc.task == t ==> r.value.table == table)
      && (rc.task != t ==> forall i :: 0 <= i < |table| && table[i].taskNo == no ==> r.value.table[i] == rc.task)
    ensures r.Ok? ==> Step(FindByNo(table, no).value.status, r.value.task.status)
    ensures r.Ok? ==> forall i :: 0 <= i < |table| && table[i].taskNo != no ==> r.value.table[i] == table[i]
    ensures TableWellFormed(table) && r.Ok? ==> TableWellFormed(r.value.table)
  {
    match FindByNo(table, no)
    case None => Err(InvalidTaskNo)
    case Some(t) => Reconcile(table, t, svc, now)
  }

  /** `updateTaskStatusByTaskId`, the provider webhook: the first row carrying
      the provider id must still be running, and is then reconciled. */
  function UpdateTaskStatusByTaskId(table: Table, id: string, svc: Services, now: int): (r: Result<Table, Error>)
    ensures FindByTaskId(table, id).None? ==> r == Err(InvalidTaskId) && Message(r.error) == "Unvalid Task ID"
    ensures FindByTaskId(table, id).Some? && FindByTaskId(table, id).value.status != Running ==> r == Err(InvalidTaskId)
    ensures r.Ok? <==> FindByTaskId(table, id).Some? && FindByTaskId(table, id).value.status == Running
                       && UpdateTaskStatus(FindByTaskId(table, id).value, svc, now).Ok?
    ensures FindByTaskId(table, id).Some? && FindByTaskId(table, id).value.status == Running
            && UpdateTaskStatus(FindByTaskId(table, id).value, svc, now).Err?
            ==> r == Err(UpdateTaskStatus(FindByTaskId(table, id).value, svc, now).error)
    ensures r.Ok? ==> |r.value| == |table|
    // the reconciled row is written over every row with the task's number when it changed
    ensures r.Ok? ==>
      var t := FindByTaskId(table, id).value;
      var rc := UpdateTaskStatus(t, svc, now).value;
      && (rc.task == t ==> r.value == table)
      && (rc.task != t ==> forall i :: 0 <= i < |table| && table[i].taskNo == t.taskNo ==> r.value[i] == rc.task)
    ensures r.Ok? ==>
      var no := FindByTaskId(table, id).value.taskNo;
      forall i :: 0 <= i < |table| && table[i].taskNo != no ==> r.value[i] == table[i]
    ensures TableWellFormed(table) && r.Ok? ==> TableWellFormed(r.value)
  {
    match FindByTaskId(table, id)
    case None => Err(InvalidTaskId)
    case Some(t) =>
      if t.status != Running then Err(InvalidTaskId)
      else
        match Reconcile(table, t, svc, now)
        case Err(e) => Err(e)
        case Ok(polled) => Ok(polled.table)
  }
}

module StoreProperties {
  import opened Wrappers
  import opened Tasks
  import opened Lifecycle
  import opened Store

  /** After a webhook call succeeds, the provider id resolves to the row it
      wrote, so a second notification for a task that call finished is refused
      as "Unvalid Task ID" and changes nothing. */
  lemma WebhookSettlesOnce(table: Table, id: string, svc: Services, now: int, svc2: Services, now2: int)
    requires TableWellFormed(table)
    requires UpdateTaskStatusByTaskId(table, id, svc, now).Ok?
    ensures var t := FindByTaskId(table, id).value;
            var next := UpdateTaskStatus(t, svc, now).value.task;
            && FindByTaskId(UpdateTaskStatusByTaskId(table, id, svc, now).value, id) == Some(next)
            && (Terminal(next.status) ==>
                  UpdateTaskStatusByTaskId(UpdateTaskStatusByTaskId(table, id, svc, now).value, id, svc2, now2)
                  == Err(InvalidTaskId))
  {
  }
}

=== FILE: tasks.dfy ===
/** The persisted AI-task row, the values it is built from, and the
    invariants the lifecycle keeps on it (app/.server/services/ai-tasks.ts). */
module Tasks {
  import opened Wrappers

  type Url = string

  /** Provider tags as stored in the `provider` column. The column is free text,
      so any other tag can be read back and must be handled. */
  const Kie4oTag: string := "kie_4o"
  const KontextTag: string := "kie_kontext"

  predicate KnownProvider(tag: string) {
    tag == Kie4oTag || tag == KontextTag
  }

  /** JavaScript truthiness of an optional string: present and non-empty. */
  predicate Truthy(s: Option<string>) {
    s.Some? && s.value != ""
  }

  datatype Status = Pending | Running | Succeeded | Failed

  predicate Terminal(s: Status) {
    s == Succeeded || s == Failed
  }

  /** Position of a status in the lifecycle pending -> running -> {succeeded, failed}. */
  function Rank(s: Status): nat {
    match s
    case Pending => 0
    case Running => 1
    case Succeeded => 2
    case Failed => 2
  }

  /** The status changes one reconciliation call may make. */
  predicate Step(s: Status, s': Status) {
    s' == s || (s == Pending && s' == Running) || (s == Running && Terminal(s'))
  }

  /** The status changes any number of reconciliation calls may make. */
  predicate Reachable(s: Status, s': Status) {
    s' == s || (s == Pending && s' != Pending) || (s == Running && Terminal(s'))
  }

  // ---- what the user asked for (descriptive metadata of a task) ----

  datatype Hairstyle = Hairstyle(name: string, cover: Option<Url>)
  /** `value` is the colour's hex code; an empty one means "keep the natural colour". */
  datatype HairColor = HairColor(name: string, value: string, cover: Option<Url>)
  datatype InputParams = InputParams(photo: Url, hairColor: HairColor, hairstyle: Hairstyle, detail: string)
  datatype Ext = Ext(hairstyle: string, haircolor: Option<string>)

  // ---- provider request payloads, replayed verbatim when a task starts ----

  /** The arguments handed to the 4o prompt template; the rendered text is not modelled. */
  datatype FourOPrompt = FourOPrompt(
    hairstyle: string, haircolor: string, haircolorHex: string,
    withStyleReference: bool, withColorReference: bool, detail: string)

  /** The arguments handed to the Kontext prompt template. */
  datatype KontextPrompt = KontextPrompt(hairstyle: string, haircolor: string, detail: string)

  datatype RequestParam =
    | FourOParams(filesUrl: seq<Url>, fourOPrompt: FourOPrompt, size: string,
                  nVariants: string, callBackUrl: Option<Url>)
    | KontextParams(inputImage: Url, kontextPrompt: KontextPrompt, aspectRatio: string,
                    model: string, outputFormat: string, callBackUrl: Option<Url>)

  // ---- provider status reports, stored verbatim in `result_data` ----

  datatype FourOResponse = FourOResponse(resultUrls: seq<Url>)

  /** A 4o task-detail report. `progress` is the provider's percentage string
      already converted by `currency(...).intValue`. */
  datatype FourOReport = FourOReport(
    status: string, progress: int, response: Option<FourOResponse>, errorMessage: Option<string>)

  datatype KontextResponse = KontextResponse(resultImageUrl: Option<Url>, originImageUrl: Option<Url>)

  datatype KontextReport = KontextReport(
    successFlag: int, response: Option<KontextResponse>, errorMessage: Option<string>)

  datatype ResultData = FourOData(fourO: FourOReport) | KontextData(kontext: KontextReport)

  // ---- the row ----

  /** One persisted AI task. Timestamps are integers (milliseconds). */
  datatype Task = Task(
    taskNo: string,
    userId: string,
    createdAt: int,
    taskId: Option<string>,
    status: Status,
    provider: string,
    requestParam: RequestParam,
    estimatedStartAt: int,
    startedAt: Option<int>,
    completedAt: Option<int>,
    resultUrl: Option<Url>,
    resultData: Option<ResultData>,
    failReason: Option<string>,
    aspect: string,
    ext: Ext,
    inputParams: InputParams)

  /** The public projection of a row handed back to callers (`AiTaskResult`). */
  datatype View = View(
    taskNo: string, taskId: Option<string>, createdAt: int, status: Status,
    completedAt: Option<int>, aspect: string, resultUrl: Option<Url>,
    failReason: Option<string>, ext: Ext)

  /** `transformResult`: the caller sees these columns of the row and nothing else. */
  function Project(t: Task): (v: View)
    ensures v.taskNo == t.taskNo && v.taskId == t.taskId && v.createdAt == t.createdAt
    ensures v.status == t.status && v.completedAt == t.completedAt && v.aspect == t.aspect
    ensures v.resultUrl == t.resultUrl && v.failReason == t.failReason && v.ext == t.ext
  {
    View(t.taskNo, t.taskId, t.createdAt, t.status, t.completedAt, t.aspect,
         t.resultUrl, t.failReason, t.ext)
  }

  /** Lifecycle consistency of a row: the provider id and start time exist once
      started, completion data exactly once terminal, a result url and no failure
      reason on success, and neither before completion. A failed row may lack a
      reason: the provider's error message can be absent. */
  predicate WellFormed(t: Task) {
    && (t.taskId.Some? <==> t.status != Pending)
    && (t.startedAt.Some? <==> t.status != Pending)
    && (t.completedAt.Some? <==> Terminal(t.status))
    && (t.resultData.Some? <==> Terminal(t.status))
    && (t.status == Succeeded ==> t.resultUrl.Some? && t.failReason.None?)
    && (!Terminal(t.status) ==> t.resultUrl.None? && t.failReason.None?)
  }

  /** The columns the lifecycle never writes. */
  predicate SameIdentity(a: Task, b: Task) {
    && a.taskNo == b.taskNo
    && a.userId == b.userId
    && a.createdAt == b.createdAt
    && a.provider == b.provider
    && a.requestParam == b.requestParam
    && a.estimatedStartAt == b.estimatedStartAt
    && a.aspect == b.aspect
    && a.ext == b.ext
    && a.inputParams == b.inputParams
  }

  /** The errors the service raises, plus whatever a collaborator throws. */
  datatype Error =
    | InvalidTaskNo
    | NotPending
    | NotAllowedToStart
    | InvalidProvider
    | InvalidTaskId
    | Raised(message: string)

  function Message(e: Error): string {
    match e
    case InvalidTaskNo => "Unvalid Task No"
    case NotPending => "Task is not in Pending"
    case NotAllowedToStart => "Not Allow to Start"
    case InvalidProvider => "Unvalid Task Provider"
    case InvalidTaskId => "Unvalid Task ID"
    case Raised(m) => m
  }
}

=== FILE: wrappers.dfy ===
/** Absent values and thrown errors of the modelled TypeScript code.
    `None` stands for `null`/`undefined`; `Err` stands for an exception that
    propagates out of a call. */
module Wrappers {

  datatype Option<+T> = None | Some(value: T)

  datatype Result<+T, +E> = Ok(value: T) | Err(error: E)
}
